=== FILE: README.md ===
# Diagnostics controller model

This project models the `run` action of ZFTool's `DiagnosticsController` in Dafny. The
action assembles groups of diagnostic check definitions. It takes them from the
application's `diagnostics` configuration section and from every loaded module that
offers `getDiagnostics()`. It can narrow them to one group by a case-insensitive
name filter. It then turns every definition into a check instance, labelled
`"<group>: <key>"` when the key is a real name, and refuses the first definition it
cannot use. Finally it chooses a console reporter, hands the checks to the runner,
and shapes the response: a console exit level, an HTML page or a JSON document built
from the result collection.

Modules follow the controller's structure:

- `Fallible`: `Option` and `Result`.
- `PhpArray`: PHP's ordered arrays, where `$a[$k] = $v` replaces a value in place or
  appends it.
- `CaseFold`: `strcasecmp` and string truthiness.
- `Definitions`: the definition shapes and the normaliser of one definition.
- `Groups`: the configuration merge and the group filter.
- `Normalizer`: the nested loop over groups and definitions.
- `Outcomes`: result names, the JSON array and the exit level.
- `Controller`: `runAction` as a whole.
- `Scenarios`: concrete configurations, proved, that mirror the controller's test cases.

Everything PHP decides at run time becomes an oracle field of `Definitions.Env`:

- `is_callable`;
- `is_numeric`;
- the service locator's `has`;
- `class_exists`;
- `instanceof CheckInterface`;
- whether a registry value is an object;
- whether an object has `__toString`;
- whether `setLabel` is callable.

The check runner is a function parameter from the check list and the break-on-failure
flag to the finished result collection.

## Model

| member | source | states |
|---|---|---|
| PhpArray.Get | src/Controller/DiagnosticsController.php:75 | reading `$config[$name]` back finds a value exactly when the key is present; the merge and `details` lemmas observe the arrays written at lines 75 and 321 through it |
| PhpArray.Assign | src/Controller/DiagnosticsController.php:75 | `$config[$moduleName] = $checks` keeps every existing key at its position, keeps the length when the key exists, and appends the pair at the end when it does not |
| PhpArray.AssignGet | src/Controller/DiagnosticsController.php:75 | after the assignment the assigned key reads as the new value and every other key reads as before |
| PhpArray.AssignUnique | src/Controller/DiagnosticsController.php:321 | assigning into an array with distinct keys leaves the keys distinct |
| CaseFold.StrCaseCmp | src/Controller/DiagnosticsController.php:88 | `strcasecmp` returns a sign in -1..1, and returns 0 exactly when the two names are equal after ASCII lower-casing |
| CaseFold.StrCaseCmpRespectsFold | src/Controller/DiagnosticsController.php:88 | `strcasecmp` gives the same result against two strings that are equal ignoring case |
| CaseFold.StrCaseCmpAntisymmetric | src/Controller/DiagnosticsController.php:88 | swapping the two names negates the comparison |
| Groups.FilterOn | src/Controller/DiagnosticsController.php:87 | the filter is on exactly when the route gives a string that is longer than one character, or is one character other than '0', which is PHP's truthiness of a string |
| Groups.CollectModules | src/Controller/DiagnosticsController.php:70-84 | merging module definitions never removes or reorders a group already in the configuration |
| Groups.CollectModulesAddsModuleGroups | src/Controller/DiagnosticsController.php:70-84 | every group after the existing ones is named after a loaded module whose `getDiagnostics()` returned an array |
| Groups.CollectWithoutFilter | src/Controller/DiagnosticsController.php:70-84 | without an active filter, every module whose `getDiagnostics()` returns an array ends up with exactly those definitions under its name; any other group name keeps its base value |
| Groups.FilterGroups | src/Controller/DiagnosticsController.php:88 | the filtered configuration holds at most one group: the first whose name equals the filter ignoring case, unchanged, or nothing when no name matches |
| Groups.IntersectWalk | src/Controller/DiagnosticsController.php:88 | the sort-and-merge walk of `array_intersect_ukey` against the single filter key decides keep-or-delete for every group of the sorted configuration |
| Groups.IntersectWalkKeepsFirstMatch | src/Controller/DiagnosticsController.php:88 | on groups sorted by `strcasecmp` of their names, the walk keeps exactly the first group named like the filter, and that group is the one `Groups.FilterGroups` keeps |
| Groups.CaseTwinsKeepFirst | src/Controller/DiagnosticsController.php:88 | of the groups "Foo" and "foo", the filter "foo" keeps only "Foo", in the walk and in `Groups.FilterGroups` |
| Groups.FilterGroupsAppend | src/Controller/DiagnosticsController.php:88 | across a concatenation the first part's match wins, and the second part is consulted only when the first has none |
| Groups.FilterGroupsIdempotent | src/Controller/DiagnosticsController.php:88 | filtering a second time by the same name changes nothing |
| Groups.FilterMissExactly | src/Controller/DiagnosticsController.php:88-90 | the filter result is empty exactly when no group name matches ignoring case, so a matching group with no definitions does not count as a miss |
| Groups.FilterIgnoresOtherGroups | src/Controller/DiagnosticsController.php:75-88 | assigning a group whose name the filter rejects does not change what the filter keeps |
| Groups.EarlyStopHarmless | src/Controller/DiagnosticsController.php:78-88 | when no other module name matches the filter ignoring case, breaking out of the module loop at the module named like the filter yields the same filtered groups as a complete loop |
| Groups.RestRejected | src/Controller/DiagnosticsController.php:70-88 | modules whose names the filter rejects contribute nothing that survives the filter |
| Definitions.LabelFor | src/Controller/DiagnosticsController.php:123-126 | a definition gets no custom label exactly when its key is an integer, "", "0" or a numeric string; otherwise the label is the group name, ": " and the key |
| Definitions.Admit | src/Controller/DiagnosticsController.php:218-229 | a resolved instance is accepted exactly when it implements `CheckInterface`; otherwise the given error is thrown |
| Definitions.Unresolved | src/Controller/DiagnosticsController.php:212-215 | the error for an identifier nothing resolves is "Cannot find" with the group and the identifier, except for an object without `__toString`, where building the message raises PHP's conversion `Error` |
| Definitions.RegistryReject | src/Controller/DiagnosticsController.php:218-224 | a registry value that is not a check raises "does not implement" when it is an object, and `get_class`'s `TypeError` when it is not |
| Definitions.Resolve | src/Controller/DiagnosticsController.php:179-231 | a non-string identifier becomes a `Callback` when callable and the unresolved-identifier error otherwise; anything resolved is either a `Callback` or a `CheckInterface` instance |
| Definitions.Normalize | src/Controller/DiagnosticsController.php:121-233 | every check built is a `Callback` or a `CheckInterface` instance; it carries the custom label exactly when it accepts one and the key earns one |
| Definitions.CallableDefinitionIsWrapped | src/Controller/DiagnosticsController.php:128-137 | a callable definition, whatever its shape, becomes a parameterless `Callback` with the key's label |
| Definitions.ObjectDefinitionKeptAsIs | src/Controller/DiagnosticsController.php:139-155 | a non-callable object is used as the same instance when it implements `CheckInterface`, and otherwise raises the "Cannot use object" error for that object |
| Definitions.ArrayDefinitionSplits | src/Controller/DiagnosticsController.php:157-216 | an empty array is refused; otherwise the head is the identifier and the tail the parameters, every built instance gets exactly the tail, and a shared registry instance is fetched only when the tail is empty |
| Definitions.SingletonArrayMatchesScalar | src/Controller/DiagnosticsController.php:157-171 | a one-element array and its element written bare normalise alike |
| Definitions.CallablePrecedenceDependsOnShape | src/Controller/DiagnosticsController.php:129-185 | a callable bare string is wrapped even when the registry knows it, while the same string at the head of an array comes from the registry |
| Definitions.RegistryComesFirst | src/Controller/DiagnosticsController.php:179-224 | a name the registry knows is built with the parameters or fetched without them; it is accepted exactly when that value is a check, and otherwise raises "does not implement" for an object and the `TypeError` for anything else |
| Definitions.NamespaceOrder | src/Controller/DiagnosticsController.php:187-224 | for a name the registry does not know, the Laminas check namespace wins over the ZFTool one, the ZFTool one wins over the callable step, and both win over a bare class name that is not callable; each constructs the class with the parameters and raises "does not implement" for an instance that is not a check |
| Definitions.CallableStepPosition | src/Controller/DiagnosticsController.php:187-206 | an existing built-in check class takes precedence over a callable identifier, and with no namespace match a callable identifier becomes a `Callback` with the parameters |
| Definitions.NotFoundExactlyWhenNothingResolves | src/Controller/DiagnosticsController.php:179-216 | the unresolved-identifier error ("Cannot find check class or service", or the conversion `Error` for an object without `__toString`) is raised exactly when no step of the resolution chain applies |
| Definitions.UnusableShapes | src/Controller/DiagnosticsController.php:157-177 | null and resources raise "Cannot understand" with their type name, and an empty array raises "Cannot use an empty array()" |
| Definitions.NonStringHeads | src/Controller/DiagnosticsController.php:180-216 | an integer, boolean, float, null or resource identifier is never looked up and raises "Cannot find" |
| Normalizer.NormalizeAll | src/Controller/DiagnosticsController.php:120-233 | the fail-fast normalisation of the visited definitions yields, on success, exactly one check per definition |
| Normalizer.NormalizeAllSpec | src/Controller/DiagnosticsController.php:120-233 | the definitions all normalise exactly when each one does; the checks then come one per definition in order; otherwise the error is the first failing definition's |
| Normalizer.NormalizeAllAppend | src/Controller/DiagnosticsController.php:120-233 | normalising two runs of definitions gives the first run's error, else the second's, else the two check lists joined |
| Normalizer.FlattenPosition | src/Controller/DiagnosticsController.php:121-122 | the definition at key index k of group g is visited at position (definitions in the groups before g) + k |
| Normalizer.BuildChecks | src/Controller/DiagnosticsController.php:120-233 | the nested loop over groups and keys yields the fail-fast normalisation of all definitions in visiting order, with one check per definition on success |
| Normalizer.ChecksFollowConfiguration | src/Controller/DiagnosticsController.php:120-233 | on success, the check at each definition's visiting position is that definition normalised under its own group and key |
| Outcomes.ResultName | src/Controller/DiagnosticsController.php:297-311 | the first matching case of the switch names the result, each name in both directions: "success" exactly for a success; "warning" exactly for a warning that is not a success; "failure" exactly for a failure that is neither; "skip" exactly for any other `ResultInterface`; "unknown" exactly for anything else |
| Outcomes.ResultNameOfDeclaredResult | src/Controller/DiagnosticsController.php:297-311 | for any `ResultInterface` the name is never "unknown", "warning" means a warning that is not a success, and "skip" means none of the three kinds |
| Outcomes.Details | src/Controller/DiagnosticsController.php:319-326 | `details` has at most one entry per result item, since a repeated label overwrites its entry instead of adding one |
| Outcomes.DetailsUnique | src/Controller/DiagnosticsController.php:319-326 | `details` holds each label at most once |
| Outcomes.DetailsAbsent | src/Controller/DiagnosticsController.php:319-326 | a label that no result item carries has no entry in `details` |
| Outcomes.DetailsLastWins | src/Controller/DiagnosticsController.php:319-326 | the `details` entry for a label is the result name, message and data of the last item with that label |
| Outcomes.ToJson | src/Controller/DiagnosticsController.php:317-336 | `details` is the per-label array built from the result items, the five counters are copied from the collection, and `passed` is true exactly when there is no failure |
| Outcomes.ExitLevel | src/Controller/DiagnosticsController.php:259-263 | the console exit level is 0 or 1, and 1 exactly when the run recorded a failure |
| Outcomes.ExitLevelAgreesWithPassed | src/Controller/DiagnosticsController.php:259-335 | exit level 0 exactly when JSON says `passed`; warnings, skips and unknown results change neither |
| Controller.ChooseReporter | src/Controller/DiagnosticsController.php:240-246 | no reporter unless the request is a console request and the run is not quiet; `verbose` or `debug` override `quiet` and choose the verbose reporter, passing `debug` on; otherwise the basic reporter |
| Controller.Assemble | src/Controller/DiagnosticsController.php:67-101 | with a filter on, at most one group is kept: the first merged group whose name matches the filter ignoring case, or none when no merged name matches; without one, the `diagnostics` section's groups keep their order at the front |
| Controller.RunAction | src/Controller/DiagnosticsController.php:54-290 | the action misses the group exactly when an active filter leaves nothing; it reports "no checks" exactly when no filter is active and the configuration is empty; it throws exactly when some definition fails; it runs exactly when all definitions normalise, and then the runner gets those checks and the break flag, and the plan carries the reporter chosen from the request's flags |
| Controller.GroupNotFoundExactly | src/Controller/DiagnosticsController.php:86-101 | with an active filter, the group is missed exactly when no merged group name matches ignoring case, and then the exit level is 1 and nothing runs |
| Controller.NoChecksExactly | src/Controller/DiagnosticsController.php:103-117 | without an active filter, an empty configuration ends the action with exit level 1 |
| Controller.FailFastOrRunAll | src/Controller/DiagnosticsController.php:119-249 | the action throws exactly when some definition fails, with the first failing definition's error and without running; otherwise the runner gets one check per definition in visiting order |
| Controller.FilteredChecksComeFromMatchingGroups | src/Controller/DiagnosticsController.php:86-122 | with a filter, every definition that gets visited comes from a group whose name matches the filter ignoring case |
| Controller.ConsoleExitLevel | src/Controller/DiagnosticsController.php:253-265 | a console run returns the runner's collection with exit level 1 exactly when it holds a failure, and 0 otherwise |
| Controller.HttpResponseShape | src/Controller/DiagnosticsController.php:267-290 | over HTTP, JSON is served exactly when the Accept header matches JSON but not HTML; every other case gets the page; JSON `passed` reflects the failure count; no console reporter is attached |
| Scenarios.FilteringKeepsOneGroup | tests/ZFToolTest/Diagnostics/DiagnosticsControllerTest.php:581-602 | filtering two groups by "group2" runs exactly group2's two instances, in order, labelled "group2: test21" and "group2: test22" |
| Scenarios.FilterFailureScenario | tests/ZFToolTest/Diagnostics/DiagnosticsControllerTest.php:626-637 | a filter that matches no group ends the run with exit level 1 |
| Scenarios.NumericKeysKeepDefaultLabels | tests/ZFToolTest/Diagnostics/DiagnosticsControllerTest.php:534-561 | positional keys leave a built-in check with its default label, and a named key labels it "group: test3" |

## Left out

- Running the checks is left out. The runner, its break-on-failure loop, its handling of exceptions and invalid results, and the collection's counters belong to `ZFTool\Diagnostics\Runner` and the result collection. Those sources are not part of this model, so the runner is a function parameter.
- Console reporters and the text they print are left out, and so are `colorize` and the wording of the two console messages. The model keeps which reporter is chosen and the exit levels.
- HTTP content negotiation is reduced to two booleans: whether the Accept header (default `text/html`) matches `text/html` and whether it matches `application/json`.
- `is_callable`, `is_numeric`, `class_exists` with autoloading, the service locator and `instanceof` are oracles, not re-implementations of PHP's rules. `Definitions.SaneRuntime` pins down only the parts of `is_callable` that no PHP runtime can change.
- Exceptions that constructors or the service locator throw while building an instance are not modelled. A built instance is identified by how it was obtained (`Definitions.Origin`).
- Labels are recorded per definition. `setLabel` mutates a shared instance, so when two definitions name the same shared service, PHP keeps only the last label written; the model does not track that aliasing.
- PHP's key normalisation is not modelled: numeric-string array keys become integers. Group names are strings, and definition keys are either an index or a name as written.
- The loose `$moduleName == $checkGroupName` at line 80 is modelled as string equality. Module names are class namespaces, which never compare equal to a different non-numeric string under loose comparison.
- A `diagnostics` section whose group value is not an array is not modelled. Groups always hold definition arrays.
- Array definitions are lists: a string-keyed parameter array, passed to `newInstanceArgs` as named arguments, is not modelled.
- `Outcomes.ToJson` models an empty collection as an empty `details` array. PHP reads the undefined `$data` there, which gives null and a warning (a notice before PHP 8).
- `Outcomes.ResultName` keeps the "unknown" branch, which is unreachable: the parameter is declared `ResultInterface`, as `Outcomes.ResultNameOfDeclaredResult` shows.
- `Groups.FilterGroups` keeps the first group in configuration order whose name matches the filter ignoring case. PHP's `array_intersect_ukey` sorts the groups by key with `strcasecmp` and walks them against the filter key; `Groups.IntersectWalkKeepsFirstMatch` shows the walk keeps only the first match in sorted order. The sort itself is not modelled. Which of several groups named alike up to case survives therefore rests on the sort keeping such names in configuration order: PHP's insertion sort does so for up to 16 groups, and for more groups the survivor may be a different twin.
- `Controller.Assemble` inherits that assumption: with more than 16 groups and several named alike up to case, PHP may keep a different one of them than the model.
- `Definitions.RegistryReject` follows PHP 8. Under PHP 7, `get_class` of a non-object warns and returns false, so the controller throws "does not implement" with an empty class name instead of the `TypeError`. `Definitions.Unresolved` also follows PHP 8: before PHP 7.4, converting an object without `__toString` was a recoverable fatal error rather than an `Error`.
- The framework wiring is not modelled: the controller factories, `Module.php` and the route configuration.
- Some facts about the code that the model keeps:
  - the normaliser's own exception messages name the following:
    - "Cannot use object": the object;
    - "Cannot use an empty array()": the group;
    - "Cannot understand": the type name and the group;
    - "Cannot find": the identifier and the group;
    - "does not implement": the class of the resolved instance.

    None of these messages names the key;
  - the callable step of the resolution chain comes after both built-in namespaces and before bare class names;
  - the group filter applies before any definition is normalised, so invalid definitions in other groups are never looked at;
  - the JSON document carries `passed`, not a `result` field.

=== FILE: case_fold.dfy ===
/** Case-insensitive comparison the way PHP's `strcasecmp` does it: characters are
    lower-cased in the ASCII range only, then compared in order. */
module CaseFold {

  function Lower(c: char): char {
    if 'A' <= c <= 'Z' then (c as int + 32) as char else c
  }

  /** Equal after ASCII lower-casing, character by character. */
  predicate SameIgnoringCase(a: string, b: string) {
    |a| == |b| && forall i :: 0 <= i < |a| ==> Lower(a[i]) == Lower(b[i])
  }

  /** `strcasecmp(a, b)`, normalised to its sign: the first differing lower-cased
      character decides, otherwise the shorter string is the smaller. */
  function StrCaseCmp(a: string, b: string): (r: int)
    ensures -1 <= r <= 1
    ensures r == 0 <==> SameIgnoringCase(a, b)
  {
    if |a| == 0 then (if |b| == 0 then 0 else -1)
    else if |b| == 0 then 1
    else if Lower(a[0]) < Lower(b[0]) then -1
    else if Lower(a[0]) > Lower(b[0]) then 1
    else
      var r := StrCaseCmp(a[1..], b[1..]);
      assert SameIgnoringCase(a, b) <==> SameIgnoringCase(a[1..], b[1..]) by {
        if SameIgnoringCase(a[1..], b[1..]) {
          forall i | 0 <= i < |a|
            ensures Lower(a[i]) == Lower(b[i])
          {
            if i > 0 { assert a[i] == a[1..][i - 1] && b[i] == b[1..][i - 1]; }
          }
        }
        if SameIgnoringCase(a, b) {
          forall i | 0 <= i < |a[1..]|
            ensures Lower(a[1..][i]) == Lower(b[1..][i])
          {
            assert a[1..][i] == a[i + 1] && b[1..][i] == b[i + 1];
          }
        }
      }
      r
  }

  /** Swapping the arguments of `strcasecmp` flips the sign of its result. */
  lemma {:induction false} StrCaseCmpAntisymmetric(a: string, b: string)
    ensures StrCaseCmp(a, b) == -StrCaseCmp(b, a)
    decreases |a|
  {
    if |a| > 0 && |b| > 0 && Lower(a[0]) == Lower(b[0]) {
      StrCaseCmpAntisymmetric(a[1..], b[1..]);
    }
  }

  /** `strcasecmp` cannot tell apart two strings that are equal ignoring case. */
  lemma {:induction false} StrCaseCmpRespectsFold(a: string, b: string, c: string)
    requires SameIgnoringCase(b, c)
    ensures StrCaseCmp(a, b) == StrCaseCmp(a, c)
    decreases |a|
  {
    if |a| > 0 && |b| > 0 {
      assert Lower(b[0]) == Lower(c[0]);
      if Lower(a[0]) == Lower(b[0]) {
        assert SameIgnoringCase(b[1..], c[1..]) by {
          forall i | 0 <= i < |b[1..]|
            ensures Lower(b[1..][i]) == Lower(c[1..][i])
          {
            assert b[1..][i] == b[i + 1] && c[1..][i] == c[i + 1];
          }
        }
        StrCaseCmpRespectsFold(a[1..], b[1..], c[1..]);
      }
    }
  }

  /** PHP truthiness of a string: only "" and "0" are falsy. */
  predicate Truthy(s: string) {
    s != "" && s != "0"
  }
}

=== FILE: controller.dfy ===
/** `DiagnosticsController::runAction`: assemble the check groups, narrow them to the
    requested group, build the checks, pick a reporter, run, and shape the response for
    the kind of request. */
module Controller {
  import opened Fallible
  import opened CaseFold
  import opened Definitions
  import opened Groups
  import opened Normalizer
  import opened Outcomes

  /** The request kind; for HTTP, whether the Accept header matches `text/html` and
      whether it matches `application/json`. */
  datatype Request = ConsoleRequest | HttpRequest(matchesHtml: bool, matchesJson: bool) | OtherRequest

  /** The route parameters `verbose`, `debug`, `quiet`, `break` and `filter`. */
  datatype Flags = Flags(verbose: bool, debug: bool, quiet: bool, breakOnFailure: bool, filter: Option<string>)

  datatype Reporter = NoReporter | Basic | Verbose(debug: bool)

  /** What the runner is given. */
  datatype RunPlan = RunPlan(checks: seq<Check>, breakOnFailure: bool, reporter: Reporter)

  /** What `runAction` ends with. */
  datatype Response =
    | GroupNotFound(filter: string)             // console model, error level 1
    | NoChecksConfigured                        // console model, error level 1
    | ConfigurationError(error: Err)            // the RuntimeException escapes the action
    | ConsoleView(plan: RunPlan, results: Collection, errorLevel: int)
    | PageView(plan: RunPlan, results: Collection)
    | JsonView(plan: RunPlan, json: Json)
    | NoView(plan: RunPlan)                     // neither console nor HTTP: the action returns null

  /** Whether the checks were run. */
  predicate Ran(resp: Response) {
    resp.ConsoleView? || resp.PageView? || resp.JsonView? || resp.NoView?
  }

  /** The console error level a response sets, if it sets one. */
  function ErrorLevel(resp: Response): Option<int> {
    match resp
    case GroupNotFound(_) => Some(1)
    case NoChecksConfigured => Some(1)
    case ConsoleView(_, _, level) => Some(level)
    case _ => None
  }

  /** The reporter: none unless the request comes from the console and the run is not
      quiet; `verbose` or `debug` override `quiet` and choose the verbose reporter. */
  function ChooseReporter(verbose: bool, debug: bool, quiet: bool, console: bool): (r: Reporter)
    ensures r == NoReporter <==> !console || (quiet && !verbose && !debug)
    ensures r.Verbose? <==> console && (verbose || debug)
    ensures r.Verbose? ==> r.debug == debug
    ensures r == Basic <==> console && !quiet && !verbose && !debug
  {
    var quietRun := !verbose && !debug && quiet;
    if !quietRun && console then
      if verbose || debug then Verbose(debug) else Basic
    else NoReporter
  }

  /** The `diagnostics` section (empty when absent) with the modules' definitions added. */
  function Merged(appConfig: Option<Config>, mods: seq<Module>, filter: Option<string>): Config {
    CollectModules(if appConfig.Some? then appConfig.value else [], mods, filter)
  }

  /** The merged groups, narrowed to the first group named like the filter when a
      filter is on. */
  function Assemble(appConfig: Option<Config>, mods: seq<Module>, filter: Option<string>): (r: Config)
    ensures FilterOn(filter) ==> |r| <= 1
    ensures FilterOn(filter) ==>
              forall i :: FirstMatchAt(Merged(appConfig, mods, filter), filter.value, i) ==>
                r == [Merged(appConfig, mods, filter)[i]]
    ensures FilterOn(filter) && (forall g :: g in Merged(appConfig, mods, filter) ==> !SameIgnoringCase(g.0, filter.value)) ==>
              r == []
    ensures !FilterOn(filter) && appConfig.Some? ==>
              |r| >= |appConfig.value| && forall i :: 0 <= i < |appConfig.value| ==> r[i].0 == appConfig.value[i].0
  {
    var merged := Merged(appConfig, mods, filter);
    if FilterOn(filter) then FilterGroups(merged, filter.value) else merged
  }

  /** `runAction`, with the runner as the function `run` from the checks and the
      break-on-failure flag to the finished collection. */
  function RunAction(env: Env, appConfig: Option<Config>, mods: seq<Module>, flags: Flags,
                     request: Request, run: (seq<Check>, bool) -> Collection): (resp: Response)
    ensures var cfg := Assemble(appConfig, mods, flags.filter);
            && (resp.GroupNotFound? <==> FilterOn(flags.filter) && |cfg| == 0)
            && (resp.NoChecksConfigured? <==> !FilterOn(flags.filter) && |cfg| == 0)
            && (resp.ConfigurationError? <==> |cfg| > 0 && NormalizeAll(env, Flatten(cfg)).Failure?)
            && (resp.ConfigurationError? ==> resp.error == NormalizeAll(env, Flatten(cfg)).error)
            && (Ran(resp) <==> |cfg| > 0 && NormalizeAll(env, Flatten(cfg)).Success?)
            && (Ran(resp) ==> resp.plan.checks == NormalizeAll(env, Flatten(cfg)).value
                              && resp.plan.breakOnFailure == flags.breakOnFailure
                              && resp.plan.reporter == ChooseReporter(flags.verbose, flags.debug, flags.quiet, request.ConsoleRequest?))
  {
    var cfg := Assemble(appConfig, mods, flags.filter);
    if FilterOn(flags.filter) && |cfg| == 0 then GroupNotFound(flags.filter.value)
    else if |cfg| == 0 then NoChecksConfigured
    else
      match NormalizeAll(env, Flatten(cfg))
      case Failure(e) => ConfigurationError(e)
      case Success(checks) =>
        var reporter := ChooseReporter(flags.verbose, flags.debug, flags.quiet, request.ConsoleRequest?);
        var plan := RunPlan(checks, flags.breakOnFailure, reporter);
        var results := run(checks, flags.breakOnFailure);
        match request
        case ConsoleRequest => ConsoleView(plan, results, ExitLevel(results))
        case HttpRequest(html, json) =>
          if html then PageView(plan, results)
          else if json then JsonView(plan, ToJson(results))
          else PageView(plan, results)
        case OtherRequest => NoView(plan)
  }

  /** An active filter that no group name matches, ignoring case, ends the action with
      error level 1 before any check is built; a matching group without definitions is
      not a miss. */
  lemma GroupNotFoundExactly(env: Env, appConfig: Option<Config>, mods: seq<Module>, flags: Flags,
                             request: Request, run: (seq<Check>, bool) -> Collection)
    ensures var resp := RunAction(env, appConfig, mods, flags, request, run);
            var merged := Merged(appConfig, mods, flags.filter);
            && (resp.GroupNotFound? <==>
                  FilterOn(flags.filter) && forall i :: 0 <= i < |merged| ==> !SameIgnoringCase(merged[i].0, flags.filter.value))
            && (resp.GroupNotFound? ==> ErrorLevel(resp) == Some(1) && !Ran(resp))
  {
    if FilterOn(flags.filter) {
      FilterMissExactly(Merged(appConfig, mods, flags.filter), flags.filter.value);
    }
  }

  /** Without a filter, an empty configuration ends the action with error level 1. */
  lemma NoChecksExactly(env: Env, appConfig: Option<Config>, mods: seq<Module>, flags: Flags,
                        request: Request, run: (seq<Check>, bool) -> Collection)
    ensures var resp := RunAction(env, appConfig, mods, flags, request, run);
            && (resp.NoChecksConfigured? <==> !FilterOn(flags.filter) && |Assemble(appConfig, mods, flags.filter)| == 0)
            && (resp.NoChecksConfigured? ==> ErrorLevel(resp) == Some(1))
  {
  }

  /** Fail-fast: when some definition cannot be used, the action throws the error of
      the first such definition in visiting order and nothing runs; otherwise the
      runner receives one check per definition, in visiting order. */
  lemma {:induction false} FailFastOrRunAll(env: Env, appConfig: Option<Config>, mods: seq<Module>, flags: Flags,
                                           request: Request, run: (seq<Check>, bool) -> Collection)
    requires |Assemble(appConfig, mods, flags.filter)| > 0
    ensures var resp := RunAction(env, appConfig, mods, flags, request, run);
            var es := Flatten(Assemble(appConfig, mods, flags.filter));
            && (resp.ConfigurationError? <==> exists k :: FirstFailure(env, es, k))
            && (resp.ConfigurationError? ==>
                  && !Ran(resp)
                  && exists k :: FirstFailure(env, es, k) && resp.error == Normalize(env, es[k].group, es[k].key, es[k].def).error)
            && (!resp.ConfigurationError? ==>
                  && Ran(resp)
                  && |resp.plan.checks| == |es|
                  && forall i :: 0 <= i < |es| ==> Normalize(env, es[i].group, es[i].key, es[i].def) == Success(resp.plan.checks[i]))
  {
    var es := Flatten(Assemble(appConfig, mods, flags.filter));
    var resp := RunAction(env, appConfig, mods, flags, request, run);
    NormalizeAllSpec(env, es);
    if NormalizeAll(env, es).Success? {
      assert forall k :: !FirstFailure(env, es, k);
    } else {
      var k :| FirstFailure(env, es, k) && NormalizeAll(env, es).error == Normalize(env, es[k].group, es[k].key, es[k].def).error;
      assert FirstFailure(env, es, k);
      assert resp.ConfigurationError? && !Ran(resp);
      assert exists k' :: FirstFailure(env, Flatten(Assemble(appConfig, mods, flags.filter)), k');
      assert resp.error == Normalize(env, es[k].group, es[k].key, es[k].def).error;
    }
  }

  /** With a filter on, every check the runner receives was defined in a group whose
      name matches the filter ignoring case. */
  lemma {:induction false} FilteredChecksComeFromMatchingGroups(cfg: Config, f: string)
    ensures forall e :: e in Flatten(FilterGroups(cfg, f)) ==> SameIgnoringCase(e.group, f)
    decreases |cfg|
  {
    if |cfg| > 0 {
      if Matches(cfg[0].0, f) {
        FlattenOne(cfg[0]);
      } else {
        FilteredChecksComeFromMatchingGroups(cfg[1..], f);
      }
    }
  }

  /** On the console the exit level is 1 exactly when the run recorded a failure. */
  lemma ConsoleExitLevel(env: Env, appConfig: Option<Config>, mods: seq<Module>, flags: Flags,
                         run: (seq<Check>, bool) -> Collection)
    ensures var resp := RunAction(env, appConfig, mods, flags, ConsoleRequest, run);
            Ran(resp) ==> resp.ConsoleView? &&
                          resp.results == run(resp.plan.checks, flags.breakOnFailure) &&
                          (ErrorLevel(resp) == Some(1) <==> resp.results.counts.failure > 0) &&
                          (ErrorLevel(resp) == Some(0) <==> resp.results.counts.failure == 0)
  {
  }

  /** Over HTTP the page wins whenever the Accept header matches HTML, JSON is served
      only for a JSON-only match, and any other Accept header gets the page too. */
  lemma HttpResponseShape(env: Env, appConfig: Option<Config>, mods: seq<Module>, flags: Flags,
                          html: bool, json: bool, run: (seq<Check>, bool) -> Collection)
    ensures var resp := RunAction(env, appConfig, mods, flags, HttpRequest(html, json), run);
            Ran(resp) ==> && (resp.JsonView? <==> !html && json)
                          && (resp.PageView? <==> html || !json)
                          && (resp.JsonView? ==> (resp.json.passed <==> run(resp.plan.checks, flags.breakOnFailure).counts.failure == 0))
                          && resp.plan.reporter == NoReporter
  {
  }
}

=== FILE: definitions.dfy ===
/** Check definitions and their normalisation into labelled checks: the body of the
    inner loop of `DiagnosticsController::runAction`. Every question PHP answers at run
    time (is this callable, does this class exist, does the registry know this name,
    does this object implement `CheckInterface`) is an oracle of `Env`. */
module Definitions {
  import opened Fallible

  /** A PHP value, as far as the normaliser can tell values apart. Objects (closures
      included) are identified by their object id. */
  datatype Value =
    | Obj(id: nat)
    | Arr(items: seq<Value>)
    | Str(s: string)
    | Int(i: int)
    | Float(text: string)
    | Bool(b: bool)
    | Null
    | Resource(handle: nat, closed: bool)
  {
    /** `is_scalar`. */
    predicate IsScalar() {
      Str? || Int? || Float? || Bool?
    }

    /** `gettype`, for the shapes the normaliser cannot understand. */
    function TypeName(): string {
      match this
      case Obj(_) => "object"
      case Arr(_) => "array"
      case Str(_) => "string"
      case Int(_) => "integer"
      case Float(_) => "double"
      case Bool(_) => "boolean"
      case Null => "NULL"
      case Resource(_, closed) => if closed then "resource (closed)" else "resource"
    }
  }

  /** A key of a group's definition array: a positional index or a name. */
  datatype Key = Idx(n: int) | Name(s: string)

  /** Where a check instance comes from. */
  datatype Origin =
    | Given(obj: nat)                                  // an object in the configuration, used as-is
    | Wrapped(target: Value, params: seq<Value>)       // `new Callback($target, $params)`
    | Shared(service: string)                          // `$serviceLocator->get($name)`
    | Built(service: string, params: seq<Value>)       // `$serviceLocator->build($name, $params)`
    | Constructed(cls: string, params: seq<Value>)     // `new $cls(...$params)` by reflection

  /** A check ready to run. `custom == None` means the check keeps its own default label. */
  datatype Check = Check(origin: Origin, custom: Option<string>)

  /** What the normaliser throws, with what each message names. The first five are its
      own `RuntimeException`s; the last two are errors PHP itself raises while the
      controller builds one of those messages. */
  datatype Err =
    | NotACheckObject(obj: nat)                        // object that is not a CheckInterface
    | EmptyDefinition(group: string)                   // `array()` as definition
    | UnknownDefinition(group: string, typeName: string) // neither callable, object, array nor scalar
    | NotFound(group: string, name: Value)             // identifier nothing resolves
    | NotACheck(origin: Origin)                        // resolved object is not a CheckInterface
    | NoStringForm(obj: nat)                           // `Error`: an unresolved object identifier has no `__toString`
    | ClassOfNonObject(origin: Origin)                 // `TypeError`: `get_class` of a registry value that is no object

  /** The PHP runtime as the controller queries it. */
  datatype Env = Env(
    isCallable: Value -> bool,      // `is_callable`
    isNumeric: string -> bool,      // `is_numeric`
    hasService: string -> bool,     // `$serviceLocator->has`
    classExists: string -> bool,    // `class_exists`, autoloading included
    isCheck: Origin -> bool,        // `instanceof CheckInterface` of the instance an origin yields
    isObject: Origin -> bool,       // `is_object` of what an origin yields
    hasToString: nat -> bool,       // whether an object converts to a string (`__toString`)
    canSetLabel: Origin -> bool     // `is_callable([$check, 'setLabel'])`
  )

  /** What any PHP runtime guarantees about `is_callable`: null, booleans, numbers,
      resources and the empty array are never callable. */
  ghost predicate SaneRuntime(env: Env) {
    && !env.isCallable(Null)
    && !env.isCallable(Arr([]))
    && (forall b: bool :: !env.isCallable(Bool(b)))
    && (forall i: int :: !env.isCallable(Int(i)))
    && (forall t: string :: !env.isCallable(Float(t)))
    && (forall h: nat, c: bool :: !env.isCallable(Resource(h, c)))
  }

  const LaminasCheckNamespace: string := "Laminas\\Diagnostics\\Check\\"
  const ToolCheckNamespace: string := "ZFTool\\Diagnostics\\Check\\"

  /** The custom label for the definition under `key` in `group`, if the key earns one:
      integer keys, "", "0" and numeric strings do not. */
  function LabelFor(env: Env, group: string, key: Key): (r: Option<string>)
    ensures r.None? <==> key.Idx? || key.s == "" || key.s == "0" || env.isNumeric(key.s)
    ensures r.Some? ==> |r.value| == |group| + 2 + |key.s| && r.value[..|group|] == group
                        && r.value[|group|..|group| + 2] == ": " && r.value[|group| + 2..] == key.s
  {
    match key
    case Idx(_) => None
    case Name(s) =>
      if s == "" || s == "0" || env.isNumeric(s) then None
      else Some(group + ": " + s)
  }

  /** Whether the instance an origin yields accepts a custom label: `Callback` always
      does, anything else only when it has a callable `setLabel`. */
  predicate Relabelable(env: Env, o: Origin) {
    o.Wrapped? || env.canSetLabel(o)
  }

  /** The instance check applied to a given object or a resolved one, and the label. */
  function Admit(env: Env, o: Origin, custom: Option<string>, err: Err): (r: Result<Check, Err>)
    requires !o.Wrapped?
    ensures r.Success? <==> env.isCheck(o)
    ensures r.Failure? ==> r.error == err
    ensures r.Success? ==> r.value.origin == o
  {
    if !env.isCheck(o) then Failure(err)
    else Success(Check(o, if env.canSetLabel(o) then custom else None))
  }

  /** The error for an identifier nothing resolves: "Cannot find", unless the
      identifier is an object PHP cannot turn into the message's text. */
  function Unresolved(env: Env, group: string, head: Value): (e: Err)
    ensures e.NoStringForm? <==> head.Obj? && !env.hasToString(head.id)
    ensures e.NoStringForm? ==> e.obj == head.id
    ensures !(head.Obj? && !env.hasToString(head.id)) ==> e == NotFound(group, head)
  {
    if head.Obj? && !env.hasToString(head.id) then NoStringForm(head.id) else NotFound(group, head)
  }

  /** The error for a registry value that is not a check: `get_class` needs an object. */
  function RegistryReject(env: Env, o: Origin): (e: Err)
    ensures e == NotACheck(o) <==> env.isObject(o)
    ensures !env.isObject(o) ==> e == ClassOfNonObject(o)
  {
    if env.isObject(o) then NotACheck(o) else ClassOfNonObject(o)
  }

  /** Resolves the identifier `head` with constructor parameters `params`, trying in
      order: the service registry, the two built-in check namespaces, a callable, and
      a bare class name. */
  function Resolve(env: Env, group: string, custom: Option<string>, head: Value, params: seq<Value>): (r: Result<Check, Err>)
    ensures !head.Str? ==> r == if env.isCallable(head) then Success(Check(Wrapped(head, params), custom))
                                 else Failure(Unresolved(env, group, head))
    ensures r.Success? ==> r.value.origin.Wrapped? || env.isCheck(r.value.origin)
  {
    if head.Str? && env.hasService(head.s) then
      var o := if 0 < |params| then Built(head.s, params) else Shared(head.s);
      Admit(env, o, custom, RegistryReject(env, o))
    else if head.Str? && env.classExists(LaminasCheckNamespace + head.s) then
      var o := Constructed(LaminasCheckNamespace + head.s, params);
      Admit(env, o, custom, NotACheck(o))
    else if head.Str? && env.classExists(ToolCheckNamespace + head.s) then
      var o := Constructed(ToolCheckNamespace + head.s, params);
      Admit(env, o, custom, NotACheck(o))
    else if env.isCallable(head) then
      Success(Check(Wrapped(head, params), custom))
    else if head.Str? && env.classExists(head.s) then
      var o := Constructed(head.s, params);
      Admit(env, o, custom, NotACheck(o))
    else
      Failure(Unresolved(env, group, head))
  }

  /** Turns the definition `def` found under `key` in `group` into a check, or the
      exception the controller throws for it. */
  function Normalize(env: Env, group: string, key: Key, def: Value): (r: Result<Check, Err>)
    ensures r.Success? ==> r.value.origin.Wrapped? || env.isCheck(r.value.origin)
    ensures r.Success? ==> r.value.custom == if Relabelable(env, r.value.origin) then LabelFor(env, group, key) else None
  {
    var custom := LabelFor(env, group, key);
    if env.isCallable(def) then
      Success(Check(Wrapped(def, []), custom))
    else
      match def
      case Obj(id) => Admit(env, Given(id), custom, NotACheckObject(id))
      case Arr(items) =>
        if |items| == 0 then Failure(EmptyDefinition(group))
        else Resolve(env, group, custom, items[0], items[1..])
      case Null => Failure(UnknownDefinition(group, def.TypeName()))
      case Resource(_, _) => Failure(UnknownDefinition(group, def.TypeName()))
      case _ => Resolve(env, group, custom, def, [])
  }

  /** `is_callable` is asked first: a callable definition, whatever its shape, becomes a
      parameterless `Callback`, even a string that also names a service or a class. */
  lemma CallableDefinitionIsWrapped(env: Env, group: string, key: Key, def: Value)
    requires env.isCallable(def)
    ensures Normalize(env, group, key, def) == Success(Check(Wrapped(def, []), LabelFor(env, group, key)))
  {
  }

  /** An object definition that is not callable is used as-is, the same instance, when
      it implements `CheckInterface`, and is refused otherwise. */
  lemma ObjectDefinitionKeptAsIs(env: Env, group: string, key: Key, id: nat)
    requires !env.isCallable(Obj(id))
    ensures var r := Normalize(env, group, key, Obj(id));
            && (r.Success? <==> env.isCheck(Given(id)))
            && (r.Success? ==> r.value.origin == Given(id))
            && (r.Failure? ==> r.error == NotACheckObject(id))
  {
  }

  /** A non-callable array is split into the identifier at its head and the parameters
      in its tail; every resolved instance receives exactly those parameters, except a
      shared registry instance, which is only fetched when there are none. */
  lemma ArrayDefinitionSplits(env: Env, group: string, key: Key, items: seq<Value>)
    requires !env.isCallable(Arr(items))
    ensures |items| == 0 ==> Normalize(env, group, key, Arr(items)) == Failure(EmptyDefinition(group))
    ensures |items| > 0 ==> Normalize(env, group, key, Arr(items)) == Resolve(env, group, LabelFor(env, group, key), items[0], items[1..])
    ensures var r := Normalize(env, group, key, Arr(items));
            r.Success? ==> match r.value.origin
                           case Shared(_) => |items| == 1
                           case Given(_) => false
                           case Wrapped(_, ps) => ps == items[1..]
                           case Built(_, ps) => ps == items[1..] && |ps| > 0
                           case Constructed(_, ps) => ps == items[1..]
  {
  }

  /** A one-element array behaves exactly like its element written bare, when neither
      is callable: both resolve the element with no parameters. */
  lemma SingletonArrayMatchesScalar(env: Env, group: string, key: Key, v: Value)
    requires v.IsScalar() && !env.isCallable(v) && !env.isCallable(Arr([v]))
    ensures Normalize(env, group, key, Arr([v])) == Normalize(env, group, key, v)
  {
    assert [v][1..] == [];
  }

  /** Precedence differs by shape: a bare string that is callable is wrapped even when
      the registry knows it, while the same string at the head of an array is taken
      from the registry first. */
  lemma CallablePrecedenceDependsOnShape(env: Env, group: string, key: Key, n: string)
    requires env.isCallable(Str(n)) && !env.isCallable(Arr([Str(n)]))
    requires env.hasService(n) && env.isCheck(Shared(n))
    ensures Normalize(env, group, key, Str(n)).value.origin == Wrapped(Str(n), [])
    ensures Normalize(env, group, key, Arr([Str(n)])).value.origin == Shared(n)
  {
    assert [Str(n)][1..] == [];
  }

  /** The registry is asked first: a string it knows is never looked up as a class or a
      callable, and the instance it returns must itself be a check. */
  lemma RegistryComesFirst(env: Env, group: string, custom: Option<string>, n: string, params: seq<Value>)
    requires env.hasService(n)
    ensures var o := if |params| > 0 then Built(n, params) else Shared(n);
            var r := Resolve(env, group, custom, Str(n), params);
            && (r.Success? <==> env.isCheck(o))
            && (r.Success? ==> r.value.origin == o)
            && (r.Failure? ==> r.error == if env.isObject(o) then NotACheck(o) else ClassOfNonObject(o))
  {
  }

  /** The callable step comes after both built-in namespaces and before the bare class
      name, and its `Callback` skips the instance check. */
  lemma CallableStepPosition(env: Env, group: string, custom: Option<string>, n: string, params: seq<Value>)
    requires !env.hasService(n) && env.isCallable(Str(n))
    ensures env.classExists(LaminasCheckNamespace + n) ==>
              Resolve(env, group, custom, Str(n), params).Failure? ||
              Resolve(env, group, custom, Str(n), params).value.origin == Constructed(LaminasCheckNamespace + n, params)
    ensures !env.classExists(LaminasCheckNamespace + n) && !env.classExists(ToolCheckNamespace + n) ==>
              Resolve(env, group, custom, Str(n), params) == Success(Check(Wrapped(Str(n), params), custom))
  {
  }

  /** "Cannot find" is thrown exactly when no step of the resolution chain applies (or,
      for an object identifier without `__toString`, PHP's own conversion error). */
  lemma NotFoundExactlyWhenNothingResolves(env: Env, group: string, custom: Option<string>, head: Value, params: seq<Value>)
    ensures Resolve(env, group, custom, head, params) == Failure(Unresolved(env, group, head)) <==>
              && !env.isCallable(head)
              && (head.Str? ==> !env.hasService(head.s)
                                && !env.classExists(LaminasCheckNamespace + head.s)
                                && !env.classExists(ToolCheckNamespace + head.s)
                                && !env.classExists(head.s))
  {
  }

  /** For an identifier the registry does not know and that is not callable, the
      namespaces and the bare class name are tried in this order: the Laminas check
      namespace, then the ZFTool one, then the name as given. Each constructs the class
      with the parameters and refuses an instance that is not a check. */
  lemma NamespaceOrder(env: Env, group: string, custom: Option<string>, n: string, params: seq<Value>)
    requires !env.hasService(n)
    ensures var laminas := Constructed(LaminasCheckNamespace + n, params);
            env.classExists(LaminasCheckNamespace + n) ==>
              Resolve(env, group, custom, Str(n), params) == Admit(env, laminas, custom, NotACheck(laminas))
    ensures var tool := Constructed(ToolCheckNamespace + n, params);
            !env.classExists(LaminasCheckNamespace + n) && env.classExists(ToolCheckNamespace + n) ==>
              Resolve(env, group, custom, Str(n), params) == Admit(env, tool, custom, NotACheck(tool))
    ensures var bare := Constructed(n, params);
            !env.classExists(LaminasCheckNamespace + n) && !env.classExists(ToolCheckNamespace + n) &&
            !env.isCallable(Str(n)) && env.classExists(n) ==>
              Resolve(env, group, custom, Str(n), params) == Admit(env, bare, custom, NotACheck(bare))
  {
  }

  /** With a real PHP runtime, null and resources are shapes the controller cannot
      understand, and an empty array is refused as such. */
  lemma UnusableShapes(env: Env, group: string, key: Key, h: nat, closed: bool)
    requires SaneRuntime(env)
    ensures Normalize(env, group, key, Null) == Failure(UnknownDefinition(group, "NULL"))
    ensures Normalize(env, group, key, Resource(h, closed)) ==
              Failure(UnknownDefinition(group, if closed then "resource (closed)" else "resource"))
    ensures Normalize(env, group, key, Arr([])) == Failure(EmptyDefinition(group))
  {
  }

  /** Only string identifiers reach the registry, the namespaces and class names: any
      other head is a `Callback` when callable and "Cannot find" otherwise. */
  lemma NonStringHeads(env: Env, group: string, key: Key, head: Value, params: seq<Value>)
    requires SaneRuntime(env) && !env.isCallable(Arr([head] + params))
    requires head.Int? || head.Bool? || head.Float? || head.Null? || head.Resource?
    ensures Normalize(env, group, key, Arr([head] + params)) == Failure(NotFound(group, head))
  {
    assert ([head] + params)[0] == head;
  }
}

=== FILE: fallible.dfy ===
/** Option and Result datatypes used across the model; `Result` is failure-compatible,
    so `:-` propagates the first error, which is how a thrown PHP exception is modelled. */
module Fallible {

  datatype Option<+T> = None | Some(value: T)

  datatype Result<+T, +E> = Success(value: T) | Failure(error: E) {

    predicate IsFailure() {
      Failure?
    }

    function PropagateFailure<U>(): Result<U, E>
      requires Failure?
    {
      Failure(error)
    }

    function Extract(): T
      requires Success?
    {
      value
    }
  }
}

=== FILE: groups.dfy ===
/** The check-group configuration: the `diagnostics` section merged with the
    definitions loaded modules supply, then narrowed to one group by the filter. */
module Groups {
  import opened Fallible
  import opened PhpArray
  import opened CaseFold
  import opened Definitions

  /** One group: definition key to definition, in configuration order. */
  type Entries = Arr<Key, Value>

  /** Group name to the group's definitions, in configuration order. */
  type Config = Arr<string, Entries>

  /** What a loaded module offers: no callable `getDiagnostics`, one that returns
      something other than an array, or one that returns definitions. */
  datatype Hook = NoHook | NonArray | Provides(checks: Entries)

  datatype Module = Module(name: string, hook: Hook)

  /** The route's `filter` parameter takes effect only when it is a truthy string. */
  predicate FilterOn(filter: Option<string>): (on: bool)
    ensures on <==> filter.Some? && (|filter.value| > 1 || (|filter.value| == 1 && filter.value[0] != '0'))
  {
    filter.Some? && Truthy(filter.value)
  }

  predicate DistinctNames(mods: seq<Module>) {
    forall i, j :: 0 <= i < j < |mods| ==> mods[i].name != mods[j].name
  }

  /** Whether the loop over modules stops right after `m`: the module has a hook and
      its name equals the active filter. */
  predicate StopsAt(m: Module, filter: Option<string>) {
    !m.hook.NoHook? && FilterOn(filter) && m.name == filter.value
  }

  /** Adds the definitions of the loaded modules to `cfg`, in load order, each under
      the module's name; a module whose name equals the active filter ends the loop. */
  function CollectModules(cfg: Config, mods: seq<Module>, filter: Option<string>): (r: Config)
    ensures |r| >= |cfg| && forall i :: 0 <= i < |cfg| ==> r[i].0 == cfg[i].0
    decreases |mods|
  {
    if |mods| == 0 then cfg
    else
      var m := mods[0];
      if m.hook.NoHook? then CollectModules(cfg, mods[1..], filter)
      else
        var next := if m.hook.Provides? then Assign(cfg, m.name, m.hook.checks) else cfg;
        if StopsAt(m, filter) then next
        else CollectModules(next, mods[1..], filter)
  }

  /** Every module's definitions end up under its name, and nothing else changes,
      when no filter cuts the loop short. */
  lemma {:induction false} CollectWithoutFilter(cfg: Config, mods: seq<Module>, filter: Option<string>, n: string)
    requires !FilterOn(filter) && DistinctNames(mods)
    ensures forall j :: 0 <= j < |mods| && mods[j].name == n && mods[j].hook.Provides? ==>
              Get(CollectModules(cfg, mods, filter), n) == Some(mods[j].hook.checks)
    ensures (forall j :: 0 <= j < |mods| && mods[j].hook.Provides? ==> mods[j].name != n) ==>
              Get(CollectModules(cfg, mods, filter), n) == Get(cfg, n)
    decreases |mods|
  {
    if |mods| > 0 {
      var m := mods[0];
      var next := if m.hook.Provides? then Assign(cfg, m.name, m.hook.checks) else cfg;
      if m.hook.Provides? { AssignGet(cfg, m.name, m.hook.checks, n); }
      assert DistinctNames(mods[1..]);
      CollectWithoutFilter(next, mods[1..], filter, n);
      forall j | 0 <= j < |mods| && mods[j].name == n && mods[j].hook.Provides?
        ensures Get(CollectModules(cfg, mods, filter), n) == Some(mods[j].hook.checks)
      {
        if j > 0 {
          assert mods[1..][j - 1] == mods[j];
        }
      }
      if forall j :: 0 <= j < |mods| && mods[j].hook.Provides? ==> mods[j].name != n {
        assert forall j :: 0 <= j < |mods[1..]| && mods[1..][j].hook.Provides? ==> mods[1..][j].name != n by {
          forall j | 0 <= j < |mods[1..]| && mods[1..][j].hook.Provides?
            ensures mods[1..][j].name != n
          {
            assert mods[1..][j] == mods[j + 1];
          }
        }
      }
    }
  }

  /** Every group of `r` from position `from` on is named after a module whose
      `getDiagnostics()` returned definitions. */
  predicate NamedByModules(r: Config, from: nat, mods: seq<Module>) {
    forall i :: from <= i < |r| ==> exists j :: 0 <= j < |mods| && mods[j].hook.Provides? && mods[j].name == r[i].0
  }

  /** The module loop adds groups only after the existing ones, and each group it adds
      is named after a module whose `getDiagnostics()` returned definitions. */
  lemma {:induction false} CollectModulesAddsModuleGroups(cfg: Config, mods: seq<Module>, filter: Option<string>)
    ensures NamedByModules(CollectModules(cfg, mods, filter), |cfg|, mods)
    decreases |mods|
  {
    var r := CollectModules(cfg, mods, filter);
    if |mods| == 0 {
      assert r == cfg;
    } else {
      var m, rest := mods[0], mods[1..];
      var next := if m.hook.Provides? then Assign(cfg, m.name, m.hook.checks) else cfg;
      if !m.hook.NoHook? && StopsAt(m, filter) {
        assert r == next;
        forall i | |cfg| <= i < |r|
          ensures exists j :: 0 <= j < |mods| && mods[j].hook.Provides? && mods[j].name == r[i].0
        {
          assert mods[0].hook.Provides? && r[i].0 == m.name;
        }
      } else {
        assert r == CollectModules(next, rest, filter);
        CollectModulesAddsModuleGroups(next, rest, filter);
        forall i | |cfg| <= i < |r|
          ensures exists j :: 0 <= j < |mods| && mods[j].hook.Provides? && mods[j].name == r[i].0
        {
          if i < |next| {
            assert m.hook.Provides? && next[i].0 == m.name && r[i].0 == next[i].0;
          } else {
            var j :| 0 <= j < |rest| && rest[j].hook.Provides? && rest[j].name == r[i].0;
            assert mods[j + 1] == rest[j];
          }
        }
      }
      assert NamedByModules(r, |cfg|, mods);
    }
  }

  /** Whether the group called `name` survives the filter `f` (`strcasecmp(name, f) == 0`). */
  predicate Matches(name: string, f: string) {
    StrCaseCmp(name, f) == 0
  }

  /** Whether `cfg[i]` is the first group whose name equals `f` ignoring case. */
  predicate FirstMatchAt(cfg: Config, f: string, i: int) {
    && 0 <= i < |cfg|
    && SameIgnoringCase(cfg[i].0, f)
    && forall j :: 0 <= j < i ==> !SameIgnoringCase(cfg[j].0, f)
  }

  /** Past a first group that does not match, the first match moves one place down. */
  lemma FirstMatchInTail(cfg: Config, f: string, i: int)
    requires |cfg| > 0 && !SameIgnoringCase(cfg[0].0, f)
    ensures FirstMatchAt(cfg, f, i) <==> FirstMatchAt(cfg[1..], f, i - 1)
  {
    if FirstMatchAt(cfg[1..], f, i - 1) {
      forall j | 0 <= j < i
        ensures !SameIgnoringCase(cfg[j].0, f)
      {
        if j > 0 { assert cfg[j] == cfg[1..][j - 1]; }
      }
    }
    if FirstMatchAt(cfg, f, i) {
      assert cfg[i] == cfg[1..][i - 1];
      forall j | 0 <= j < i - 1
        ensures !SameIgnoringCase(cfg[1..][j].0, f)
      {
        assert cfg[1..][j] == cfg[j + 1];
      }
    }
  }

  /** `array_intersect_ukey($cfg, [$f => 1], 'strcasecmp')`: the one group whose name
      equals `f` ignoring case, in its original spelling, or nothing. The merge walk
      keeps a single key per filter key (`IntersectWalk`); of several groups named alike
      up to case it keeps the first in sort order, which is the first in configuration
      order when the sort keeps such names in place. */
  function FilterGroups(cfg: Config, f: string): (r: Config)
    ensures |r| <= 1
    ensures forall i :: FirstMatchAt(cfg, f, i) ==> r == [cfg[i]]
    ensures (forall i :: 0 <= i < |cfg| ==> !SameIgnoringCase(cfg[i].0, f)) ==> r == []
  {
    if |cfg| == 0 then []
    else if Matches(cfg[0].0, f) then [cfg[0]]
    else
      assert forall i :: FirstMatchAt(cfg, f, i) ==> FirstMatchAt(cfg[1..], f, i - 1) by {
        forall i { FirstMatchInTail(cfg, f, i); }
      }
      assert forall i :: 0 <= i < |cfg[1..]| ==> cfg[1..][i] == cfg[i + 1];
      FilterGroups(cfg[1..], f)
  }

  /** The first match wins across a concatenation: the second part is filtered only
      when nothing in the first part matches. */
  lemma {:induction false} FilterGroupsAppend(a: Config, b: Config, f: string)
    ensures FilterGroups(a + b, f) == if |FilterGroups(a, f)| == 1 then FilterGroups(a, f) else FilterGroups(b, f)
  {
    if |a| > 0 {
      assert (a + b)[1..] == a[1..] + b;
      assert (a + b)[0] == a[0];
      FilterGroupsAppend(a[1..], b, f);
    } else {
      assert a + b == b;
    }
  }

  /** The merge walk `array_intersect_ukey` makes with the single filter key `f` over the
      configuration after sorting it by key with the comparator. A key below `f` is
      deleted. A key equal to `f` is kept, and both pointers move on, which exhausts the
      filter array, so every later key is deleted. The first key above `f` also exhausts
      the filter array, so it and every later key are deleted. The result says, position
      by position, whether the group survives. */
  function IntersectWalk(cfg: Config, f: string): (kept: seq<bool>)
    ensures |kept| == |cfg|
  {
    if |cfg| == 0 then []
    else
      var c := StrCaseCmp(cfg[0].0, f);
      if c > 0 then seq(|cfg|, i => false)
      else if c == 0 then [true] + seq(|cfg| - 1, i => false)
      else [false] + IntersectWalk(cfg[1..], f)
  }

  /** The groups are in the comparator's order of their names. */
  predicate SortedByCaseFold(cfg: Config) {
    forall i, j :: 0 <= i < j < |cfg| ==> StrCaseCmp(cfg[i].0, cfg[j].0) <= 0
  }

  /** On sorted groups the walk keeps exactly the first group named like the filter,
      and that group alone is what `FilterGroups` keeps. */
  lemma {:induction false} IntersectWalkKeepsFirstMatch(cfg: Config, f: string)
    requires SortedByCaseFold(cfg)
    ensures forall i :: 0 <= i < |cfg| ==> (IntersectWalk(cfg, f)[i] <==> FirstMatchAt(cfg, f, i))
    ensures forall i :: 0 <= i < |cfg| && IntersectWalk(cfg, f)[i] ==> FilterGroups(cfg, f) == [cfg[i]]
  {
    if |cfg| > 0 {
      var kept := IntersectWalk(cfg, f);
      var c := StrCaseCmp(cfg[0].0, f);
      if c > 0 {
        forall i | 0 <= i < |cfg|
          ensures !SameIgnoringCase(cfg[i].0, f)
        {
          if SameIgnoringCase(cfg[i].0, f) {
            StrCaseCmpRespectsFold(cfg[0].0, cfg[i].0, f);
          }
        }
      } else if c == 0 {
        forall i | 0 < i < |cfg|
          ensures !kept[i] && !FirstMatchAt(cfg, f, i)
        {
          assert kept[i] == seq(|cfg| - 1, j => false)[i - 1];
        }
      } else {
        assert SortedByCaseFold(cfg[1..]) by {
          forall i, j | 0 <= i < j < |cfg[1..]|
            ensures StrCaseCmp(cfg[1..][i].0, cfg[1..][j].0) <= 0
          {
            assert cfg[1..][i] == cfg[i + 1] && cfg[1..][j] == cfg[j + 1];
          }
        }
        IntersectWalkKeepsFirstMatch(cfg[1..], f);
        forall i | 0 < i < |cfg|
          ensures kept[i] <==> FirstMatchAt(cfg, f, i)
        {
          FirstMatchInTail(cfg, f, i);
          assert kept[i] == IntersectWalk(cfg[1..], f)[i - 1];
        }
      }
    }
  }

  /** Concretely: of the groups "Foo" and "foo", the filter "foo" keeps only "Foo". */
  lemma CaseTwinsKeepFirst()
    ensures IntersectWalk([("Foo", []), ("foo", [])], "foo") == [true, false]
    ensures FilterGroups([("Foo", []), ("foo", [])], "foo") == [("Foo", [])]
  {
    assert SameIgnoringCase("Foo", "foo");
  }

  /** Filtering twice by the same name changes nothing. */
  lemma {:induction false} FilterGroupsIdempotent(cfg: Config, f: string)
    ensures FilterGroups(FilterGroups(cfg, f), f) == FilterGroups(cfg, f)
  {
    if |cfg| > 0 && !Matches(cfg[0].0, f) {
      FilterGroupsIdempotent(cfg[1..], f);
    }
  }

  /** The filter comes out empty exactly when no group name matches, so a matching
      group that holds no definitions is not a miss. */
  lemma {:induction false} FilterMissExactly(cfg: Config, f: string)
    ensures |FilterGroups(cfg, f)| == 0 <==> forall i :: 0 <= i < |cfg| ==> !SameIgnoringCase(cfg[i].0, f)
  {
    if |cfg| > 0 && !Matches(cfg[0].0, f) {
      FilterMissExactly(cfg[1..], f);
      assert forall i :: 0 < i < |cfg| ==> cfg[i] == cfg[1..][i - 1];
    }
  }

  /** Assigning a group the filter rejects does not change what the filter keeps. */
  lemma {:induction false} FilterIgnoresOtherGroups(cfg: Config, n: string, v: Entries, f: string)
    requires !SameIgnoringCase(n, f)
    ensures FilterGroups(Assign(cfg, n, v), f) == FilterGroups(cfg, f)
  {
    if |cfg| == 0 {
    } else if cfg[0].0 == n {
      assert ([(n, v)] + cfg[1..])[1..] == cfg[1..];
    } else {
      HasKeyUnfold(cfg, n);
      var rest := Assign(cfg[1..], n, v);
      assert ([cfg[0]] + rest)[1..] == rest;
      FilterIgnoresOtherGroups(cfg[1..], n, v, f);
    }
  }

  /** Stopping the module loop at the module named like the filter is harmless as long
      as no other module's name matches the filter ignoring case: the filtered
      configuration is the one a complete loop would give. */
  lemma {:induction false} EarlyStopHarmless(cfg: Config, mods: seq<Module>, f: string)
    requires Truthy(f)
    requires forall j :: 0 <= j < |mods| && SameIgnoringCase(mods[j].name, f) ==> mods[j].name == f
    requires DistinctNames(mods)
    ensures FilterGroups(CollectModules(cfg, mods, Some(f)), f) == FilterGroups(CollectModules(cfg, mods, None), f)
    decreases |mods|
  {
    if |mods| > 0 {
      var m, rest := mods[0], mods[1..];
      var next := if m.hook.Provides? then Assign(cfg, m.name, m.hook.checks) else cfg;
      assert DistinctNames(rest) by {
        forall i, j | 0 <= i < j < |rest|
          ensures rest[i].name != rest[j].name
        {
          assert rest[i] == mods[i + 1] && rest[j] == mods[j + 1];
        }
      }
      if m.hook.NoHook? {
        assert CollectModules(cfg, mods, Some(f)) == CollectModules(cfg, rest, Some(f));
        assert CollectModules(cfg, mods, None) == CollectModules(cfg, rest, None);
        EarlyStopHarmless(cfg, rest, f);
      } else if StopsAt(m, Some(f)) {
        assert CollectModules(cfg, mods, Some(f)) == next;
        assert CollectModules(cfg, mods, None) == CollectModules(next, rest, None);
        forall j | 0 <= j < |rest|
          ensures !SameIgnoringCase(rest[j].name, f)
        {
          assert rest[j] == mods[j + 1];
        }
        RestRejected(next, rest, f);
      } else {
        assert CollectModules(cfg, mods, Some(f)) == CollectModules(next, rest, Some(f));
        assert CollectModules(cfg, mods, None) == CollectModules(next, rest, None);
        assert forall j :: 0 <= j < |rest| ==> rest[j] == mods[j + 1];
        EarlyStopHarmless(next, rest, f);
      }
    }
  }

  /** Modules the filter rejects add nothing the filter keeps. */
  lemma {:induction false} RestRejected(cfg: Config, mods: seq<Module>, f: string)
    requires forall j :: 0 <= j < |mods| ==> !SameIgnoringCase(mods[j].name, f)
    ensures FilterGroups(CollectModules(cfg, mods, None), f) == FilterGroups(cfg, f)
    decreases |mods|
  {
    if |mods| > 0 {
      var m := mods[0];
      var next := if m.hook.Provides? then Assign(cfg, m.name, m.hook.checks) else cfg;
      assert CollectModules(cfg, mods, None) == CollectModules(next, mods[1..], None);
      assert !SameIgnoringCase(m.name, f);
      if m.hook.Provides? {
        FilterIgnoresOtherGroups(cfg, m.name, m.hook.checks, f);
      }
      forall j | 0 <= j < |mods[1..]|
        ensures !SameIgnoringCase(mods[1..][j].name, f)
      {
        assert mods[1..][j] == mods[j + 1];
      }
      RestRejected(next, mods[1..], f);
    }
  }
}

=== FILE: normalizer.dfy ===
/** The nested loop of `runAction` that walks every group and every definition in
    order and builds the check list, throwing on the first bad definition. */
module Normalizer {
  import opened Fallible
  import opened Definitions
  import opened Groups

  /** One definition with the group and key it was found under. */
  datatype Entry = Entry(group: string, key: Key, def: Value)

  function GroupEntries(group: string, es: Entries): (r: seq<Entry>)
    ensures |r| == |es| && forall i :: 0 <= i < |es| ==> r[i] == Entry(group, es[i].0, es[i].1)
  {
    seq(|es|, i requires 0 <= i < |es| => Entry(group, es[i].0, es[i].1))
  }

  /** All definitions in visiting order: group by group, key by key within a group. */
  function Flatten(cfg: Config): seq<Entry> {
    if |cfg| == 0 then []
    else Flatten(cfg[..|cfg| - 1]) + GroupEntries(cfg[|cfg| - 1].0, cfg[|cfg| - 1].1)
  }

  /** Number of definitions in `cfg`. */
  function Size(cfg: Config): nat {
    if |cfg| == 0 then 0 else Size(cfg[..|cfg| - 1]) + |cfg[|cfg| - 1].1|
  }

  /** The definition under key index `k` of group index `g` is entry number
      `Size(cfg[..g]) + k` of the visiting order. */
  lemma {:induction false} FlattenPosition(cfg: Config, g: nat, k: nat)
    requires g < |cfg| && k < |cfg[g].1|
    ensures |Flatten(cfg)| == Size(cfg)
    ensures Size(cfg[..g]) + k < Size(cfg)
    ensures Flatten(cfg)[Size(cfg[..g]) + k] == Entry(cfg[g].0, cfg[g].1[k].0, cfg[g].1[k].1)
    decreases |cfg|
  {
    var init := cfg[..|cfg| - 1];
    FlattenSize(init);
    if g == |cfg| - 1 {
      assert cfg[..g] == init;
    } else {
      assert init[..g] == cfg[..g];
      FlattenPosition(init, g, k);
    }
  }

  lemma {:induction false} FlattenSize(cfg: Config)
    ensures |Flatten(cfg)| == Size(cfg)
    decreases |cfg|
  {
    if |cfg| > 0 {
      FlattenSize(cfg[..|cfg| - 1]);
    }
  }

  /** Visiting a configuration split in two visits the first part, then the second. */
  lemma {:induction false} FlattenAppend(a: Config, b: Config)
    ensures Flatten(a + b) == Flatten(a) + Flatten(b)
    decreases |b|
  {
    if |b| == 0 {
      assert a + b == a;
    } else {
      var b' := b[..|b| - 1];
      assert (a + b)[..|a + b| - 1] == a + b';
      assert (a + b)[|a + b| - 1] == b[|b| - 1];
      FlattenAppend(a, b');
    }
  }

  /** The visiting order around the definition under key index `k` of group index `g`. */
  lemma {:induction false} FlattenSplit(cfg: Config, g: nat, k: nat)
    requires g < |cfg| && k < |cfg[g].1|
    ensures Flatten(cfg) ==
              Flatten(cfg[..g]) + GroupEntries(cfg[g].0, cfg[g].1[..k])
              + [Entry(cfg[g].0, cfg[g].1[k].0, cfg[g].1[k].1)]
              + (GroupEntries(cfg[g].0, cfg[g].1[k + 1..]) + Flatten(cfg[g + 1..]))
  {
    var defs := cfg[g].1;
    FlattenAround(cfg, g);
    GroupEntriesSplit(cfg[g].0, defs, k);
  }

  lemma {:induction false} FlattenAround(cfg: Config, g: nat)
    requires g < |cfg|
    ensures Flatten(cfg) == Flatten(cfg[..g]) + GroupEntries(cfg[g].0, cfg[g].1) + Flatten(cfg[g + 1..])
  {
    var pre, mid, post := cfg[..g], [cfg[g]], cfg[g + 1..];
    assert cfg == pre + mid + post;
    FlattenAppend(pre + mid, post);
    FlattenAppend(pre, mid);
    FlattenOne(cfg[g]);
  }

  lemma {:induction false} FlattenOne(grp: (string, Entries))
    ensures Flatten([grp]) == GroupEntries(grp.0, grp.1)
  {
    assert [grp][..0] == [];
  }

  lemma {:induction false} GroupEntriesSplit(group: string, defs: Entries, k: nat)
    requires k < |defs|
    ensures GroupEntries(group, defs) ==
              GroupEntries(group, defs[..k]) + [Entry(group, defs[k].0, defs[k].1)] + GroupEntries(group, defs[k + 1..])
  {
  }

  /** Entry `k` is the first whose definition the normaliser refuses. */
  predicate FirstFailure(env: Env, es: seq<Entry>, k: int) {
    && 0 <= k < |es|
    && Normalize(env, es[k].group, es[k].key, es[k].def).Failure?
    && forall i :: 0 <= i < k ==> Normalize(env, es[i].group, es[i].key, es[i].def).Success?
  }

  /** Normalises the entries in order, stopping at the first failure. */
  function NormalizeAll(env: Env, es: seq<Entry>): (r: Result<seq<Check>, Err>)
    ensures r.Success? ==> |r.value| == |es|
  {
    if |es| == 0 then Success([])
    else
      var c :- Normalize(env, es[0].group, es[0].key, es[0].def);
      var rest :- NormalizeAll(env, es[1..]);
      Success([c] + rest)
  }

  /** Fail-fast and order: the entries normalise as a whole exactly when each does, the
      checks then come one per entry in entry order, and otherwise the error is that of
      the first entry that fails. */
  lemma {:induction false} NormalizeAllSpec(env: Env, es: seq<Entry>)
    ensures NormalizeAll(env, es).Success? <==>
              forall i :: 0 <= i < |es| ==> Normalize(env, es[i].group, es[i].key, es[i].def).Success?
    ensures NormalizeAll(env, es).Success? ==>
              forall i :: 0 <= i < |es| ==> NormalizeAll(env, es).value[i] == Normalize(env, es[i].group, es[i].key, es[i].def).value
    ensures NormalizeAll(env, es).Failure? ==>
              exists k :: FirstFailure(env, es, k) && NormalizeAll(env, es).error == Normalize(env, es[k].group, es[k].key, es[k].def).error
  {
    if |es| > 0 {
      var e := es[0];
      var c := Normalize(env, e.group, e.key, e.def);
      if c.Failure? {
        assert FirstFailure(env, es, 0);
      } else {
        NormalizeAllSpec(env, es[1..]);
        assert forall i :: 0 < i < |es| ==> es[i] == es[1..][i - 1];
        var rest := NormalizeAll(env, es[1..]);
        if rest.Failure? {
          var k :| FirstFailure(env, es[1..], k) && rest.error == Normalize(env, es[1..][k].group, es[1..][k].key, es[1..][k].def).error;
          assert FirstFailure(env, es, k + 1);
        } else {
          assert NormalizeAll(env, es).value == [c.value] + rest.value;
        }
      }
    }
  }

  /** Normalising a concatenation: the first part's error wins, else the second's,
      else the two check lists joined. */
  lemma {:induction false} NormalizeAllAppend(env: Env, a: seq<Entry>, b: seq<Entry>)
    ensures NormalizeAll(env, a + b) ==
              if NormalizeAll(env, a).Failure? then NormalizeAll(env, a)
              else if NormalizeAll(env, b).Failure? then NormalizeAll(env, b)
              else Success(NormalizeAll(env, a).value + NormalizeAll(env, b).value)
  {
    if |a| == 0 {
      assert a + b == b;
      if NormalizeAll(env, b).Success? {
        assert [] + NormalizeAll(env, b).value == NormalizeAll(env, b).value;
      }
    } else {
      assert (a + b)[0] == a[0];
      assert (a + b)[1..] == a[1..] + b;
      var c := Normalize(env, a[0].group, a[0].key, a[0].def);
      if c.Success? {
        NormalizeAllAppend(env, a[1..], b);
        var x, y := NormalizeAll(env, a[1..]), NormalizeAll(env, b);
        if x.Success? && y.Success? {
          assert NormalizeAll(env, a) == Success([c.value] + x.value);
          assert NormalizeAll(env, a[1..] + b) == Success(x.value + y.value);
          assert NormalizeAll(env, a + b) == Success([c.value] + (x.value + y.value));
          assert [c.value] + (x.value + y.value) == ([c.value] + x.value) + y.value;
        }
      }
    }
  }

  /** One more entry that normalises extends the check list by its check. */
  lemma {:induction false} NormalizeAllStep(env: Env, done: seq<Entry>, e: Entry, checks: seq<Check>)
    requires NormalizeAll(env, done) == Success(checks)
    requires Normalize(env, e.group, e.key, e.def).Success?
    ensures NormalizeAll(env, done + [e]) == Success(checks + [Normalize(env, e.group, e.key, e.def).value])
  {
    var c := Normalize(env, e.group, e.key, e.def).value;
    assert [e][1..] == [];
    assert NormalizeAll(env, [e][1..]) == Success([]);
    assert NormalizeAll(env, [e]) == Success([c] + []);
    assert [c] + [] == [c];
    NormalizeAllAppend(env, done, [e]);
  }

  /** An entry that fails after a prefix that normalises decides the whole result,
      whatever follows it. */
  lemma {:induction false} NormalizeAllStops(env: Env, done: seq<Entry>, e: Entry, tail: seq<Entry>, checks: seq<Check>)
    requires NormalizeAll(env, done) == Success(checks)
    requires Normalize(env, e.group, e.key, e.def).Failure?
    ensures NormalizeAll(env, done + [e] + tail) == Failure(Normalize(env, e.group, e.key, e.def).error)
  {
    NormalizeAllAppend(env, done, [e]);
    NormalizeAllAppend(env, done + [e], tail);
  }

  /** The controller's nested loop over groups and keys. On success the result holds
      one check per definition in visiting order; otherwise it is the error of the
      first definition in that order that cannot be used. */
  method BuildChecks(env: Env, cfg: Config) returns (r: Result<seq<Check>, Err>)
    ensures r == NormalizeAll(env, Flatten(cfg))
    ensures r.Success? ==> |r.value| == Size(cfg)
  {
    var checks: seq<Check> := [];
    var g := 0;
    while g < |cfg|
      invariant 0 <= g <= |cfg|
      invariant NormalizeAll(env, Flatten(cfg[..g])) == Success(checks)
    {
      var group := cfg[g].0;
      var defs := cfg[g].1;
      assert defs[..0] == [];
      assert Flatten(cfg[..g]) + GroupEntries(group, defs[..0]) == Flatten(cfg[..g]);
      var k := 0;
      while k < |defs|
        invariant 0 <= k <= |defs|
        invariant NormalizeAll(env, Flatten(cfg[..g]) + GroupEntries(group, defs[..k])) == Success(checks)
      {
        var c := Normalize(env, group, defs[k].0, defs[k].1);
        var e := Entry(group, defs[k].0, defs[k].1);
        var done := Flatten(cfg[..g]) + GroupEntries(group, defs[..k]);
        if c.Failure? {
          FlattenSplit(cfg, g, k);
          NormalizeAllStops(env, done, e, GroupEntries(group, defs[k + 1..]) + Flatten(cfg[g + 1..]), checks);
          return Failure(c.error);
        }
        NormalizeAllStep(env, done, e, checks);
        assert GroupEntries(group, defs[..k + 1]) == GroupEntries(group, defs[..k]) + [e];
        assert done + [e] == Flatten(cfg[..g]) + GroupEntries(group, defs[..k + 1]);
        checks := checks + [c.value];
        k := k + 1;
      }
      assert defs[..|defs|] == defs;
      assert cfg[..g + 1][..g] == cfg[..g];
      g := g + 1;
    }
    assert cfg[..|cfg|] == cfg;
    r := Success(checks);
    FlattenSize(cfg);
  }

  /** On success there is one check per definition, in group order and key order
      within a group, each the normalisation of its definition under its group and
      key, and each either a `Callback` or an instance of `CheckInterface`. */
  lemma ChecksFollowConfiguration(env: Env, cfg: Config, g: nat, k: nat)
    requires NormalizeAll(env, Flatten(cfg)).Success?
    requires g < |cfg| && k < |cfg[g].1|
    ensures var checks := NormalizeAll(env, Flatten(cfg)).value;
            && |checks| == Size(cfg)
            && Size(cfg[..g]) + k < |checks|
            && Normalize(env, cfg[g].0, cfg[g].1[k].0, cfg[g].1[k].1) == Success(checks[Size(cfg[..g]) + k])
            && (checks[Size(cfg[..g]) + k].origin.Wrapped? || env.isCheck(checks[Size(cfg[..g]) + k].origin))
  {
    FlattenPosition(cfg, g, k);
    NormalizeAllSpec(env, Flatten(cfg));
  }
}

=== FILE: outcomes.dfy ===
/** What the controller does with a finished result collection: the console exit
    level, the name of each result, and the array handed to the JSON view. */
module Outcomes {
  import opened Fallible
  import opened PhpArray
  import opened Definitions

  /** The result interfaces a result object implements. A result may implement more
      than one of the three kind interfaces; `result` is `ResultInterface` itself. */
  datatype ResultType = ResultType(success: bool, warning: bool, failure: bool, result: bool)

  /** A result object: its type, `getMessage()` and `getData()`. */
  datatype Outcome = Outcome(kind: ResultType, message: string, data: Value)

  /** One entry of the collection: the check's label when the collection is read, and
      its result. */
  datatype Item = Item(checkLabel: string, outcome: Outcome)

  /** The collection's own counters, maintained by the collection class. */
  datatype Counts = Counts(success: nat, warning: nat, failure: nat, skip: nat, unknown: nat)

  datatype Collection = Collection(items: seq<Item>, counts: Counts)

  /** One entry of `details`. */
  datatype Detail = Detail(result: string, message: string, data: Value)

  /** The array `getResultCollectionToArray` returns. */
  datatype Json = Json(details: Arr<string, Detail>, success: nat, warning: nat, failure: nat,
                       skip: nat, unknown: nat, passed: bool)

  /** `getResultName`: the first of success, warning, failure that the result
      implements names it; any other result is a skip. */
  function ResultName(t: ResultType): (name: string)
    ensures name in {"success", "warning", "failure", "skip", "unknown"}
    ensures name == "success" <==> t.success
    ensures name == "warning" <==> t.warning && !t.success
    ensures name == "failure" <==> t.failure && !t.success && !t.warning
    ensures name == "skip" <==> t.result && !t.success && !t.warning && !t.failure
    ensures name == "unknown" <==> !t.result && !t.success && !t.warning && !t.failure
  {
    if t.success then "success"
    else if t.warning then "warning"
    else if t.failure then "failure"
    else if t.result then "skip"
    else "unknown"
  }

  /** The parameter is declared `ResultInterface`, so "unknown" is never returned, and
      each name tells exactly which interfaces decided it. */
  lemma ResultNameOfDeclaredResult(t: ResultType)
    requires t.result
    ensures ResultName(t) != "unknown"
    ensures ResultName(t) == "warning" <==> !t.success && t.warning
    ensures ResultName(t) == "skip" <==> !t.success && !t.warning && !t.failure
  {
  }

  function ToDetail(o: Outcome): Detail {
    Detail(ResultName(o.kind), o.message, o.data)
  }

  /** `$data[$item->getLabel()] = ...` for every item in collection order: an array
      keyed by label, so a later item overwrites an earlier one with the same label. */
  function Details(items: seq<Item>): (r: Arr<string, Detail>)
    ensures |r| <= |items|
  {
    if |items| == 0 then []
    else
      var last := items[|items| - 1];
      Assign(Details(items[..|items| - 1]), last.checkLabel, ToDetail(last.outcome))
  }

  /** `details` is a PHP array: no label appears twice. */
  lemma {:induction false} DetailsUnique(items: seq<Item>)
    ensures UniqueKeys(Details(items))
  {
    if |items| > 0 {
      var last := items[|items| - 1];
      DetailsUnique(items[..|items| - 1]);
      AssignUnique(Details(items[..|items| - 1]), last.checkLabel, ToDetail(last.outcome));
    }
  }

  /** Item `j` is the last one labelled `l`. */
  predicate LastLabelled(items: seq<Item>, j: int, l: string) {
    0 <= j < |items| && items[j].checkLabel == l && forall j' :: j < j' < |items| ==> items[j'].checkLabel != l
  }

  /** A label no item carries has no entry in `details`. */
  lemma {:induction false} DetailsAbsent(items: seq<Item>, l: string)
    requires forall j :: 0 <= j < |items| ==> items[j].checkLabel != l
    ensures Get(Details(items), l) == None
  {
    if |items| > 0 {
      var n := |items| - 1;
      var init := items[..n];
      assert Details(items) == Assign(Details(init), items[n].checkLabel, ToDetail(items[n].outcome));
      AssignGet(Details(init), items[n].checkLabel, ToDetail(items[n].outcome), l);
      assert forall j :: 0 <= j < n ==> init[j] == items[j];
      DetailsAbsent(init, l);
    }
  }

  /** The `details` entry of a label is the one of the last item with that label. */
  lemma {:induction false} DetailsLastWins(items: seq<Item>, j: int, l: string)
    requires LastLabelled(items, j, l)
    ensures Get(Details(items), l) == Some(ToDetail(items[j].outcome))
  {
    var n := |items| - 1;
    var init := items[..n];
    var last := items[n];
    var d := Details(init);
    assert Details(items) == Assign(d, last.checkLabel, ToDetail(last.outcome));
    AssignGet(d, last.checkLabel, ToDetail(last.outcome), l);
    if j < n {
      assert last.checkLabel != l;
      assert Get(Details(items), l) == Get(d, l);
      LastLabelledInPrefix(items, j, l);
      DetailsLastWins(init, j, l);
      assert init[j] == items[j];
    }
  }

  lemma LastLabelledInPrefix(items: seq<Item>, j: int, l: string)
    requires LastLabelled(items, j, l) && j < |items| - 1
    ensures LastLabelled(items[..|items| - 1], j, l)
  {
    var init := items[..|items| - 1];
    forall i | j < i < |init|
      ensures init[i].checkLabel != l
    {
      assert init[i] == items[i];
    }
    assert init[j] == items[j];
  }

  /** `getResultCollectionToArray`. */
  function ToJson(c: Collection): (j: Json)
    ensures j.passed <==> c.counts.failure == 0
    ensures j.success == c.counts.success && j.warning == c.counts.warning && j.failure == c.counts.failure
    ensures j.skip == c.counts.skip && j.unknown == c.counts.unknown
    ensures j.details == Details(c.items)
  {
    Json(Details(c.items), c.counts.success, c.counts.warning, c.counts.failure,
         c.counts.skip, c.counts.unknown, c.counts.failure == 0)
  }

  /** The console exit level: failures alone make a run fail. */
  function ExitLevel(c: Collection): (level: int)
    ensures level == 0 || level == 1
    ensures level == 1 <==> c.counts.failure > 0
  {
    if c.counts.failure > 0 then 1 else 0
  }

  /** The console and JSON projections agree: exit level 0 exactly when `passed`, and
      warnings, skips and unknown results affect neither. */
  lemma ExitLevelAgreesWithPassed(c: Collection, w: nat, s: nat, u: nat)
    ensures ExitLevel(c) == 0 <==> ToJson(c).passed
    ensures var c' := c.(counts := c.counts.(warning := w, skip := s, unknown := u));
            ExitLevel(c') == ExitLevel(c) && ToJson(c').passed == ToJson(c).passed
  {
  }
}

=== FILE: php_array.dfy ===
/** PHP's ordered arrays, as insertion-ordered sequences of (key, value) pairs.
    Writing `$a[$k] = $v` replaces the value in place when `$k` is present and
    appends the pair otherwise; this is `Assign`. */
module PhpArray {
  import opened Fallible

  type Arr<K, V> = seq<(K, V)>

  /** PHP arrays never hold a key twice. */
  predicate UniqueKeys<K(==), V>(a: Arr<K, V>) {
    forall i, j :: 0 <= i < j < |a| ==> a[i].0 != a[j].0
  }

  predicate HasKey<K(==), V>(a: Arr<K, V>, k: K) {
    exists i :: 0 <= i < |a| && a[i].0 == k
  }

  /** A key is in a non-empty array iff it is the first key or a key of the rest. */
  lemma HasKeyUnfold<K, V>(a: Arr<K, V>, k: K)
    requires |a| > 0
    ensures HasKey(a, k) <==> a[0].0 == k || HasKey(a[1..], k)
  {
    if HasKey(a, k) && a[0].0 != k {
      var i :| 0 <= i < |a| && a[i].0 == k;
      assert a[1..][i - 1].0 == k;
    }
    if HasKey(a[1..], k) {
      var i :| 0 <= i < |a[1..]| && a[1..][i].0 == k;
      assert a[i + 1].0 == k;
    }
  }

  /** `$a[$k]`, or None when the key is absent. */
  function Get<K(==), V>(a: Arr<K, V>, k: K): (r: Option<V>)
    ensures r.Some? <==> HasKey(a, k)
  {
    if |a| == 0 then None
    else if a[0].0 == k then Some(a[0].1)
    else
      HasKeyUnfold(a, k);
      Get(a[1..], k)
  }

  /** `$a[$k] = $v`: keys keep their positions, and a new key goes to the end. */
  function Assign<K(==), V>(a: Arr<K, V>, k: K, v: V): (r: Arr<K, V>)
    ensures HasKey(a, k) ==> |r| == |a|
    ensures !HasKey(a, k) ==> r == a + [(k, v)]
    ensures forall i :: 0 <= i < |a| ==> r[i].0 == a[i].0
  {
    if |a| == 0 then [(k, v)]
    else if a[0].0 == k then [(k, v)] + a[1..]
    else
      HasKeyUnfold(a, k);
      [a[0]] + Assign(a[1..], k, v)
  }

  /** After `$a[$k] = $v`, reading `$k` gives `$v` and every other key reads as before. */
  lemma {:induction false} AssignGet<K, V>(a: Arr<K, V>, k: K, v: V, k': K)
    ensures Get(Assign(a, k, v), k') == if k' == k then Some(v) else Get(a, k')
  {
    if |a| > 0 && a[0].0 != k {
      AssignGet(a[1..], k, v, k');
    }
  }

  /** `$a[$k] = $v` keeps the keys of a PHP array distinct. */
  lemma {:induction false} AssignUnique<K, V>(a: Arr<K, V>, k: K, v: V)
    requires UniqueKeys(a)
    ensures UniqueKeys(Assign(a, k, v))
  {
    var r := Assign(a, k, v);
    if !HasKey(a, k) {
      forall i, j | 0 <= i < j < |r|
        ensures r[i].0 != r[j].0
      {
        if j == |a| {
          assert r[j].0 == k;
          assert r[i].0 == a[i].0;
        }
      }
    }
  }
}

=== FILE: scenarios.dfy ===
/** Concrete configurations, proved, that mirror the controller's own test cases. */
module Scenarios {
  import opened Fallible
  import opened CaseFold
  import opened Definitions
  import opened Groups
  import opened Normalizer
  import opened Outcomes
  import opened Controller

  /** A runtime where nothing is callable or registered, every object is a check that
      accepts a label, and only the built-in `ClassExists` check class exists. */
  function PlainRuntime(): Env {
    Env(v => false, s => false, s => false,
        c => c == LaminasCheckNamespace + "ClassExists",
        o => true, o => true, i => true, o => true)
  }

  function NoRun(): (seq<Check>, bool) -> Collection {
    (cs, b) => Collection([], Counts(0, 0, 0, 0, 0))
  }

  const Quiet: Flags := Flags(false, false, true, false, None)

  const TwoGroups: Config :=
    [("group1", [(Name("test11"), Obj(11))]),
     ("group2", [(Name("test21"), Obj(21)), (Name("test22"), Obj(22))])]

  /** Filtering by "group2" keeps both of its checks, the given instances themselves,
      in order and relabelled with the group name. */
  lemma FilteringKeepsOneGroup()
    ensures var resp := RunAction(PlainRuntime(), Some(TwoGroups), [], Quiet.(filter := Some("group2")), ConsoleRequest, NoRun());
            Ran(resp) && resp.plan.checks == [Check(Given(21), Some("group2: test21")), Check(Given(22), Some("group2: test22"))]
  {
    var es := OnlyGroup2Entries();
    Group2Checks(es);
    RunsWhenAllNormalize(PlainRuntime(), Some(TwoGroups), [], Quiet.(filter := Some("group2")), ConsoleRequest, NoRun(), es,
                         [Check(Given(21), Some("group2: test21")), Check(Given(22), Some("group2: test22"))]);
  }

  /** group2's two objects normalise to themselves, labelled with the group name. */
  lemma Group2Checks(es: seq<Entry>)
    requires es == [Entry("group2", Name("test21"), Obj(21)), Entry("group2", Name("test22"), Obj(22))]
    ensures NormalizeAll(PlainRuntime(), es) == Success([Check(Given(21), Some("group2: test21")), Check(Given(22), Some("group2: test22"))])
  {
    var env := PlainRuntime();
    var c1, c2 := Check(Given(21), Some("group2: test21")), Check(Given(22), Some("group2: test22"));
    assert "group2" + ": " + "test21" == "group2: test21";
    assert "group2" + ": " + "test22" == "group2: test22";
    assert Normalize(env, es[0].group, es[0].key, es[0].def) == Success(c1);
    assert Normalize(env, es[1].group, es[1].key, es[1].def) == Success(c2);
    NormalizeAllSpec(env, es);
    var v := NormalizeAll(env, es).value;
    assert v == [c1, c2];
  }

  /** The action runs the checks of the visited definitions once they all normalise. */
  lemma RunsWhenAllNormalize(env: Env, appConfig: Option<Config>, mods: seq<Module>, flags: Flags,
                             request: Request, run: (seq<Check>, bool) -> Collection, es: seq<Entry>, v: seq<Check>)
    requires es == Flatten(Assemble(appConfig, mods, flags.filter)) && |es| > 0
    requires NormalizeAll(env, es) == Success(v)
    ensures Ran(RunAction(env, appConfig, mods, flags, request, run))
    ensures RunAction(env, appConfig, mods, flags, request, run).plan.checks == v
  {
  }

  /** The definitions visited when filtering `TwoGroups` by "group2". */
  lemma OnlyGroup2Entries() returns (es: seq<Entry>)
    ensures es == Flatten(Assemble(Some(TwoGroups), [], Some("group2")))
    ensures es == [Entry("group2", Name("test21"), Obj(21)), Entry("group2", Name("test22"), Obj(22))]
  {
    var f := "group2";
    assert "group1"[5] == '1' && "group2"[5] == '2';
    assert !SameIgnoringCase("group1", f);
    assert SameIgnoringCase("group2", f);
    assert TwoGroups[1..][1..] == [];
    var kept := FilterGroups(TwoGroups, f);
    assert kept == [TwoGroups[1]];
    assert Assemble(Some(TwoGroups), [], Some(f)) == kept;
    FlattenOne(TwoGroups[1]);
    es := Flatten(kept);
  }

  /** A filter no group name matches ends the run with error level 1. */
  lemma FilterFailureScenario()
    ensures ErrorLevel(RunAction(PlainRuntime(), Some(TwoGroups), [], Quiet.(filter := Some("non-existent-group")), ConsoleRequest, NoRun())) == Some(1)
  {
    var f := "non-existent-group";
    assert |"group1"| != |f| && |"group2"| != |f|;
    assert FilterGroups(TwoGroups, f) == [];
  }

  /** Positional keys earn no label; a named key labels its built-in check. */
  lemma NumericKeysKeepDefaultLabels()
    ensures var def := Arr([Str("ClassExists"), Str("Some\\Class")]);
            var cls := Constructed(LaminasCheckNamespace + "ClassExists", [Str("Some\\Class")]);
            var es := [Entry("group", Idx(0), def), Entry("group", Idx(1), def), Entry("group", Name("test3"), def)];
            NormalizeAll(PlainRuntime(), es) == Success([Check(cls, None), Check(cls, None), Check(cls, Some("group: test3"))])
  {
    var env := PlainRuntime();
    var def := Arr([Str("ClassExists"), Str("Some\\Class")]);
    var cls := Constructed(LaminasCheckNamespace + "ClassExists", [Str("Some\\Class")]);
    var es := [Entry("group", Idx(0), def), Entry("group", Idx(1), def), Entry("group", Name("test3"), def)];
    assert def.items[1..] == [Str("Some\\Class")];
    assert "group" + ": " + "test3" == "group: test3";
    assert Normalize(env, "group", Idx(0), def) == Success(Check(cls, None));
    assert Normalize(env, "group", Idx(1), def) == Success(Check(cls, None));
    assert Normalize(env, "group", Name("test3"), def) == Success(Check(cls, Some("group: test3")));
    NormalizeAllSpec(env, es);
    var v := NormalizeAll(env, es).value;
    assert |v| == 3 && v[0] == Check(cls, None) && v[1] == Check(cls, None) && v[2] == Check(cls, Some("group: test3"));
    assert v == [Check(cls, None), Check(cls, None), Check(cls, Some("group: test3"))];
  }
}
